=== FILE: README.md ===
# ZFS zvol volume driver, modelled in Dafny

This project models `ZVolDriver`, the block-storage volume driver that puts
volumes on ZFS zvols instead of LVM logical volumes. The driver is glue
around shell commands, so the model turns each driver call into a pure
function. Its inputs are the configured volume group, the volume or
snapshot record, and the text `zfs list` printed, where the call reads it.
The public operations return an `Outcome`: the backend commands issued, in
order, and what the call returns (`None`, `True`, or a raised error with its
message). The private helpers `_create_volume`, `_copy_volume` and
`_delete_volume` always return `None` in the source, so their models return
only their commands: a sequence of them, or the one `dd` command.

Modules:

- `Tokens` (`tokens.dfy`): whitespace tokenisation of command output, as
  Python 2's `str.split()` does it on a byte string. Whitespace here means
  space, tab, line feed, vertical tab, form feed and carriage return.
  `Split` is the tokeniser. `Listed` describes "t is a whole token of s" by
  positions instead. `SplitListed` proves the two agree. `Lines` renders
  one entry per line, `LinesOf` cuts text at its line feeds, and
  `Unwords` joins words with spaces into one line of a table.
- `Decimal` (`decimal.dfy`): Python's `%d` rendering of integers, with a
  parser proved to read the rendering back. This fixes the exact
  `count=<n>` argument given to `dd`.
- `ZVolDriver` (`zvol_driver.dfy`): the records, the commands, and every
  operation of the driver. `PathName` is the `'%s/%s'` formatting of
  `<group>/<name>` at lines 46, 56, 70 and 90 of
  cinder/volume/driver_zvol.py. `SnapshotFullName` is
  `_snapshot_full_name`. `Argv` gives the exact argument vector of each
  command, as lines 44-47, 51-53, 69-71 and 89-91 pass it, and
  `ParseArgv` is its inverse.
- `Backend` (`backend.dfy`): a reference model of the ZFS side. The pool is
  a list of dataset names. `create` and `snapshot` add a dataset, `destroy`
  removes one, and `dd` changes no dataset. `Lines(datasets)` lists every
  dataset, one name per line, snapshots included. That is what `zfs list`
  prints when the pool's `listsnapshots` property is on.
  `Lines(WithoutSnapshots(datasets))` is the default listing, without
  snapshots. The lemmas there judge the driver's decisions against the
  pool: what a delete leaves behind, what a create makes visible, and
  whether a second call changes anything. `Table(rows)` renders what
  `zfs list` really prints: the header line `NAME USED AVAIL REFER
  MOUNTPOINT`, then one line per dataset with its name and column
  values.
- `Scenarios` (`scenarios.dfy`): concrete cases on a pool named `tank`.
- `Options` (`option.dfy`): the `Option` type used by the parsers.

A record is `VolumeRecord(name, size)` or `SnapshotRecord(name,
volumeName, volumeSize)`. The driver tells a snapshot from a volume by
probing for a `volume_name` key; the model uses this explicit variant
instead. A command is `Dd(src, dst, count)` (with `bs=1M`),
`Destroy(target)`, `Create(size, target)` or `Snapshot(target)`.

## Model

| member | source | states |
|---|---|---|
| `Tokens.Split` | cinder/volume/driver_zvol.py:58 | every token of the listing is non-empty and holds no whitespace |
| `Tokens.SplitListed` | cinder/volume/driver_zvol.py:55-61 | a string is among the tokens exactly when it fills a maximal whitespace-free run of the text; a run that only contains it, or only starts with it, does not count |
| `Tokens.SplitLines` | cinder/volume/driver_zvol.py:57-58 | splitting a listing of whitespace-free names, one per line, gives back the names in order |
| `Tokens.ListedIffInLines` | cinder/volume/driver_zvol.py:57-61 | a string is a whole token of such a listing exactly when it is one of the listed names |
| `Decimal.IntRoundTrip` | cinder/volume/driver_zvol.py:51-52 | the `%d` rendering used for `count=` reads back as the same integer, negative ones included |
| `ZVolDriver.LocalPath` | cinder/volume/driver_zvol.py:101-114 | a volume's device is `/dev/zvol/` followed by the same `<group>/<name>` the zfs commands use; a snapshot's is `/dev/zvol/<group>/<volume_name>@<name>` |
| `ZVolDriver.SnapshotFullName` | cinder/volume/driver_zvol.py:116-118 | the composite name is the volume name, then one `@`, then the snapshot name, with nothing else |
| `ZVolDriver.SplitFullNameOfJoin` | cinder/volume/driver_zvol.py:116-118 | splitting a snapshot record's composite name at its first `@` gives back the record's volume and snapshot names, when the volume name holds no `@` |
| `ZVolDriver.JoinOfSplitFullName` | cinder/volume/driver_zvol.py:116-118 | every split of a composite name joins back, with an `@` between, to the name it came from |
| `ZVolDriver.LocalPathDistinguishes` | cinder/volume/driver_zvol.py:101-118 | when no volume name holds `@` (neither a volume record's name nor a snapshot record's volume name), two records in one group get the same device path exactly when they are the same volume or the same snapshot; a volume's path is then never a snapshot's |
| `ZVolDriver.VolumeNotPresent` | cinder/volume/driver_zvol.py:55-61 | true exactly when `<group>/<name>` is not a whole token of the listing |
| `ZVolDriver.CheckForSetupError` | cinder/volume/driver_zvol.py:34-40 | issues nothing; raises "zfs base volume group '<group>' doesn't exist" exactly when the group is not a whole token of the listing, and returns `None` otherwise |
| `ZVolDriver.CheckForSetupErrorIntended` | cinder/volume/driver_zvol.py:34-40 | corrected `check_for_setup_error`: issues nothing, and raises the same message exactly when the group is not in the name column of the listing (the first token of each line after the header) |
| `ZVolDriver.ArgvRoundTrip` | cinder/volume/driver_zvol.py:44-91 | the argument vector of every command determines the command, so the `dd`, `create`, `destroy` and `snapshot` command lines are unambiguous |
| `ZVolDriver.CreateVolume` | cinder/volume/driver_zvol.py:42-47 | issues one command, `/sbin/zfs create -V <sizestr> <group>/<volume_name>` |
| `ZVolDriver.CopyVolume` | cinder/volume/driver_zvol.py:49-53 | runs `dd if=<src> of=<dst> count=<size_in_g*1024> bs=1M` |
| `ZVolDriver.DeleteZvol` | cinder/volume/driver_zvol.py:63-71 | first zero-fills the record's device path from `/dev/zero` over `size_in_g*1024` blocks, then `/sbin/zfs destroy <group>/<name>` with the record's own name |
| `ZVolDriver.DeleteVolume` | cinder/volume/driver_zvol.py:73-82 | returns `True` with no command exactly when `<group>/<name>` is not listed; otherwise returns `None` after exactly `Dd("/dev/zero", "/dev/zvol/<group>/<name>", size*1024)` then `Destroy("<group>/<name>")` |
| `ZVolDriver.CreateSnapshot` | cinder/volume/driver_zvol.py:84-91 | issues one command, `/sbin/zfs snapshot <group>/<volume_name>@<name>`, and returns `None` |
| `ZVolDriver.DeleteSnapshot` | cinder/volume/driver_zvol.py:93-99 | as written: returns `True` with no command exactly when `<group>/<volume_name>@<name>` is not listed; otherwise zero-fills `/dev/zvol/<group>/<volume_name>@<name>` over `volume_size*1024` blocks, then destroys `<group>/<name>` |
| `ZVolDriver.DeleteSnapshotNoOpWithoutSnapshotNames` | cinder/volume/driver_zvol.py:93-97 | on any listing that holds no `@`, so names no snapshot, `delete_snapshot` issues nothing and returns `True` |
| `ZVolDriver.DeleteSnapshotIntended` | cinder/volume/driver_zvol.py:93-99 | the same decision and zero fill, but the destroy names `<group>/<volume_name>@<name>` |
| `Backend.PresenceMatchesPool` | cinder/volume/driver_zvol.py:55-61 | on the listing of a pool, the presence test agrees with membership of `<group>/<name>` in the pool |
| `Backend.SetupMatchesPool` | cinder/volume/driver_zvol.py:34-40 | on a listing of the pool's dataset names only (no header, no value columns), setup validation passes exactly when the group is one of the pool's datasets |
| `Backend.NameColumnOfTable` | cinder/volume/driver_zvol.py:36-37 | the name column of the `zfs list` table is exactly the list of its datasets, in order |
| `Backend.SetupAcceptsHeaderWords` | cinder/volume/driver_zvol.py:36-40 | on every `zfs list` table, even one with no dataset, validation as written accepts each header word (`NAME`, `USED`, `AVAIL`, `REFER`, `MOUNTPOINT`) as the volume group, whether or not a dataset has that name |
| `Backend.SetupAcceptsColumnValues` | cinder/volume/driver_zvol.py:36-40 | validation as written accepts every column value of every row, such as a zvol's `-` mount point, as the volume group, whether or not a dataset has that name |
| `Backend.SetupIntendedMatchesTable` | cinder/volume/driver_zvol.py:34-40 | on a `zfs list` table, the corrected validation passes exactly when the group is one of the listed datasets |
| `Backend.DeleteVolumeRemovesVolume` | cinder/volume/driver_zvol.py:73-82 | after `delete_volume` the volume's dataset is gone and every other dataset remains; calling it again issues nothing and returns `True` |
| `Backend.CreateVolumeMakesPresent` | cinder/volume/driver_zvol.py:42-47 | after `_create_volume` the pool gains exactly `<group>/<name>` and the presence test sees it |
| `Backend.CreateSnapshotMakesPresent` | cinder/volume/driver_zvol.py:84-91 | after `create_snapshot` the pool gains exactly the composite snapshot dataset; on a listing that shows snapshots (`listsnapshots=on`), `delete_snapshot` no longer treats it as already deleted |
| `Backend.DeleteSnapshotKeepsSnapshot` | cinder/volume/driver_zvol.py:93-99 | on a listing that shows snapshots (`listsnapshots=on`), `delete_snapshot` as written leaves a present snapshot in place, so a second call acts again; what it removes is `<group>/<name>`, a different dataset |
| `Backend.DefaultListingHidesSnapshots` | cinder/volume/driver_zvol.py:93-97 | on the default listing, which shows no snapshots, `delete_snapshot` issues nothing and returns `True` whatever the pool holds, even for a snapshot `create_snapshot` just made |
| `Backend.DeleteSnapshotIntendedRemovesSnapshot` | cinder/volume/driver_zvol.py:93-99 | the corrected `delete_snapshot` removes the composite snapshot dataset and nothing else |
| `Backend.DeleteSnapshotIntendedIdempotent` | cinder/volume/driver_zvol.py:93-99 | after the corrected `delete_snapshot`, a second call issues nothing and returns `True`, as the presence check at lines 95-97 means it to |
| `Scenarios.LocalPathExamples` | cinder/volume/driver_zvol.py:101-114 | `{name: v1}` in group `tank` maps to `/dev/zvol/tank/v1`; `{volume_name: v1, name: s1}` maps to `/dev/zvol/tank/v1@s1` |
| `Scenarios.PrefixIsNotPresent` | cinder/volume/driver_zvol.py:55-61 | with `tank/vol1`, `tank/vol10` and `tank/vol1@snap1` listed, `vol10` is present while `vol` and `vol1@snap` are not |
| `Scenarios.SetupExamples` | cinder/volume/driver_zvol.py:34-40 | setup validation accepts `tank` and raises for `tan`, a prefix of a listed token |
| `Scenarios.SetupTableExample` | cinder/volume/driver_zvol.py:34-40 | on the table listing `tank` (mounted at `/tank`) and the zvol `tank/vol1` (mount point `-`), validation as written accepts `-` as the group; the corrected validation raises for `-` and accepts `tank` |
| `Scenarios.MountPointAsGroup` | cinder/volume/driver_zvol.py:34-61 | on a table listing `tank` (mount point `/tank`) and `tank/fs` (mount point `/tank/fs`), validation as written accepts `/tank` as the group and the corrected validation raises; with that group the presence test finds `fs`, by its mount point |
| `Scenarios.DeleteSnapshotExample` | cinder/volume/driver_zvol.py:93-99 | on a listing that shows snapshots (`listsnapshots=on`), deleting snapshot `snap1` of `vol1` (2 GB) zero-fills `/dev/zvol/tank/vol1@snap1` with count 2048, then destroys `tank/snap1` |

## Left out

- Command execution (`_execute`, `_try_execute`), `run_as_root` and privilege escalation are host-runtime I/O. Commands appear only as `Command` values and their argument vectors.
- The `zfs list` call that the presence test and setup validation make is not a `Command` value. Its output is the `listing` parameter.
- Logging (`LOG.debug`) has no behavioural content and is not modelled.
- The `ISCSIDriver` base class (export and attach) is not part of this model. The `FLAGS.volume_group` setting becomes the `group` parameter.
- Errors raised by failing commands are decided by the external tools, so they are not modelled. The `Backend` reference model has no failures: `create` of an existing name and `destroy` of a missing one simply add or remove.
- Deleting a volume that still has snapshots is left undecided by the source (cinder/volume/driver_zvol.py:79-80). The model issues what the code issues and invents no policy. `Backend` destroys exactly the named dataset.
- The generic "any exception means not a snapshot" fallback in `local_path` is replaced by the explicit `Record` variant. A record that lacks fields is not representable.
- `/sbin/zfs` and `/sbin/zpool` are constants (`ZVolDriver.ZfsBin`, `ZVolDriver.ZpoolBin`); the latter is never used. The constructor does nothing else.
- Tokenisation follows Python 2 byte strings. Python 3 `str.split()` also treats further Unicode characters as whitespace; that case is not modelled.
- The real `zfs list` output also has a header and size and mount-point columns. The driver functions accept any text. Most `Backend` lemmas use a listing of names only. For the presence test that is enough when the group does not start with `/`, as no dataset name does: `<group>/<name>` then holds a `/`, so it cannot be a header word or a size, and it cannot be a mount point, since every mount point starts with `/`. A group that is empty or starts with `/` can pass setup validation as written, and the presence test then reads mount points as datasets (`Scenarios.MountPointAsGroup`). For such a group, `Backend.PresenceMatchesPool`, `Backend.DeleteVolumeRemovesVolume` and `Backend.DefaultListingHidesSnapshots` do not carry over to the real table. `Backend.Table` renders the full table for setup validation.
- `Backend.SetupMatchesPool` holds only on a listing of names. On the real table, setup validation as written also passes for header words and column values, such as `AVAIL` or a zvol's `-` mount point, that name no dataset. `Backend.SetupAcceptsHeaderWords` and `Backend.SetupAcceptsColumnValues` prove this, and the Findings table records it.
- `Backend`'s full listing `Lines(datasets)` includes snapshots. `zfs list` without `-t` prints them only when the pool's `listsnapshots` property is on, and it is off by default. The lemmas that need a listed snapshot (`Backend.CreateSnapshotMakesPresent`, `Backend.DeleteSnapshotKeepsSnapshot`, `Scenarios.DeleteSnapshotExample`, and the first Findings input) hold under that setting. The first Findings input also needs the zero fill of the snapshot's device to return normally. Command failures are not modelled, but a snapshot is read-only, so where its device node exists the `dd` write fails, the host's execute helper raises, and line 69 is never reached. `Backend.DefaultListingHidesSnapshots` covers the default listing.
- `%s` formatting of non-string values is not modelled: names are strings and sizes are integers, so `size*1024` is exact integer arithmetic.
- The `Return` of a call that raises is the error and its message; the exception class, `exception.Error`, is not distinguished further. The message passes through gettext `_()` before the group is substituted (cinder/volume/driver_zvol.py:39). The model gives the untranslated English text, which is what is raised only when no translation catalogue applies.

## Findings

| source | as written | input that shows it | evidently intended | confidence | as-written member | corrected member |
|---|---|---|---|---|---|---|
| cinder/volume/driver_zvol.py:93-99 | `delete_snapshot` tests presence of, and zero-fills, `<group>/<volume_name>@<name>`, but `_delete_volume` (line 70) destroys `<group>/<name>`, the record's own name | group `tank`, snapshot `{name: snap1, volume_name: vol1}`, pool holding `tank/vol1@snap1` with `listsnapshots=on`, so that `zfs list` shows it, and the zero fill of the snapshot's device returning normally: the command issued is `zfs destroy tank/snap1`; the snapshot stays, and a volume named `snap1` would be destroyed instead | destroy `tank/vol1@snap1`, the dataset whose presence line 95 looks up | medium (not executed): line 70 names the wrong dataset in every case, but the destroy is reached only when both conditions hold | `Backend.DeleteSnapshotKeepsSnapshot` | `ZVolDriver.DeleteSnapshotIntended` |
| cinder/volume/driver_zvol.py:36-40 | `check_for_setup_error` accepts the group when it is any whitespace-separated token of the `zfs list` output, and that output also holds a header line and size and mount-point columns | group `-` with a `zfs list` table of `tank` (mount point `/tank`) and the zvol `tank/vol1` (mount point `-`): no error is raised, though no dataset is named `-`; likewise group `/tank`, the group's mount point mistaken for its name, and then the presence test finds the mount point `/tank/fs` as the volume `fs`; likewise group `AVAIL` with any pool, even an empty one | raise unless the group is the name of a listed dataset, the first token of a line after the header | medium (not executed) | `Scenarios.SetupTableExample` | `ZVolDriver.CheckForSetupErrorIntended` |

`ZVolDriver.DeleteSnapshot` is the as-written definition and
`Scenarios.DeleteSnapshotExample` shows the concrete commands.
`Backend.DeleteSnapshotIntendedRemovesSnapshot` proves that the corrected
definition removes exactly the snapshot, and
`Backend.DeleteSnapshotIntendedIdempotent` that repeating it does nothing.
`ZVolDriver.DeleteSnapshotIntended` keeps the zero fill of the snapshot's
device, so on a system where that write fails, correcting the destroy
alone would not make the call succeed.
With the default `listsnapshots=off` the destroy is never reached at all:
`Backend.DefaultListingHidesSnapshots` shows that `delete_snapshot` then
returns `True` at line 97 without issuing anything.

For setup validation, `ZVolDriver.CheckForSetupError` is the as-written
definition. `Backend.SetupAcceptsHeaderWords` and
`Backend.SetupAcceptsColumnValues` prove that it accepts every header
word and column value, and `Scenarios.SetupTableExample` shows the
concrete case, where `-` names no dataset.
`Scenarios.MountPointAsGroup` shows the likelier misconfiguration: the
mount point `/tank` given for the group `tank`. It passes, and the
presence test then reads the mount-point column.
`Backend.SetupIntendedMatchesTable` proves that the corrected definition
passes exactly for the listed datasets. The gap matters only for a
misconfigured group; a later `zfs create` under it would then fail.

=== FILE: backend.dfy ===
/**
 A reference model of the ZFS side: the pool is the list of its dataset
 names, `zfs create` and `zfs snapshot` add a dataset, `zfs destroy`
 removes one, and `dd` leaves the set of datasets alone. Against it the
 driver's decisions can be judged: what a delete leaves behind, what a
 create makes visible, and whether repeating a call changes anything.

 `Lines(datasets)` is the listing of every dataset, one name per line,
 snapshots included: what `zfs list` prints when the pool's
 `listsnapshots` property is on. `Lines(WithoutSnapshots(datasets))` is
 what it prints by default, without the snapshots.
 */
module Backend {
  import opened Tokens
  import opened ZVolDriver

  /** Every dataset name is a possible token of the listing. */
  predicate WellNamed(datasets: seq<string>) {
    forall k :: 0 <= k < |datasets| ==> IsWord(datasets[k])
  }

  /** The datasets without `target`, in their order. */
  function Remove(datasets: seq<string>, target: string): (rest: seq<string>)
    ensures forall x :: x in rest <==> x in datasets && x != target
    ensures WellNamed(datasets) ==> WellNamed(rest)
    decreases |datasets|
  {
    if |datasets| == 0 then []
    else if datasets[0] == target then Remove(datasets[1..], target)
    else [datasets[0]] + Remove(datasets[1..], target)
  }

  /** The pool after one command. */
  function Apply(datasets: seq<string>, c: Command): (after: seq<string>) {
    match c
    case Dd(_, _, _) => datasets
    case Destroy(target) => Remove(datasets, target)
    case Create(_, target) => datasets + [target]
    case Snapshot(target) => datasets + [target]
  }

  /** The pool after a sequence of commands, run in order. */
  function Run(datasets: seq<string>, cs: seq<Command>): (after: seq<string>)
    decreases |cs|
  {
    if |cs| == 0 then datasets else Run(Apply(datasets, cs[0]), cs[1..])
  }

  lemma RunOne(datasets: seq<string>, a: Command)
    ensures Run(datasets, [a]) == Apply(datasets, a)
  {
    assert [a][1..] == [];
  }

  lemma RunTwo(datasets: seq<string>, a: Command, b: Command)
    ensures Run(datasets, [a, b]) == Apply(Apply(datasets, a), b)
  {
    assert [a, b][1..] == [b];
    RunOne(Apply(datasets, a), b);
  }

  /** The datasets that are not snapshots, in their order: the ones whose
      names hold no `@`. */
  function WithoutSnapshots(datasets: seq<string>): (shown: seq<string>)
    ensures forall x :: x in shown <==> x in datasets && '@' !in x
    decreases |datasets|
  {
    if |datasets| == 0 then []
    else if '@' in datasets[0] then WithoutSnapshots(datasets[1..])
    else [datasets[0]] + WithoutSnapshots(datasets[1..])
  }

  lemma {:induction false} NoSnapshotNameInLines(names: seq<string>)
    requires forall k :: 0 <= k < |names| ==> '@' !in names[k]
    ensures '@' !in Lines(names)
  {
    if |names| > 0 {
      NoSnapshotNameInLines(names[1..]);
      assert Lines(names) == names[0] + "\n" + Lines(names[1..]);
    }
  }

  /** On the default listing, which shows no snapshot, `delete_snapshot`
      issues nothing and returns `True`, whatever the pool holds; so it
      never removes a snapshot, not even one `create_snapshot` just made. */
  lemma DefaultListingHidesSnapshots(group: string, datasets: seq<string>, snapshot: Record)
    requires snapshot.SnapshotRecord?
    ensures DeleteSnapshot(group, Lines(WithoutSnapshots(datasets)), snapshot) == Outcome([], TrueValue)
  {
    var shown := WithoutSnapshots(datasets);
    assert forall k :: 0 <= k < |shown| ==> '@' !in shown[k] by {
      forall k | 0 <= k < |shown|
        ensures '@' !in shown[k]
      {
        assert shown[k] in shown;
      }
    }
    NoSnapshotNameInLines(shown);
    DeleteSnapshotNoOpWithoutSnapshotNames(group, Lines(shown), snapshot);
  }

  /** The driver's presence test on a pool's listing agrees with the pool. */
  lemma PresenceMatchesPool(group: string, datasets: seq<string>, name: string)
    requires WellNamed(datasets)
    ensures VolumeNotPresent(group, Lines(datasets), name) <==> PathName(group, name) !in datasets
  {
    ListedIffInLines(datasets, PathName(group, name));
  }

  /** Setup validation passes exactly when the group is one of the pool's
      datasets. */
  lemma SetupMatchesPool(group: string, datasets: seq<string>)
    requires WellNamed(datasets)
    ensures CheckForSetupError(group, Lines(datasets)).ret == NoneValue <==> group in datasets
  {
    ListedIffInLines(datasets, group);
  }

  /** The columns `zfs list` prints by default. Its header line is
      these words; real output pads the columns with runs of spaces, which
      tokenise the same as single ones. */
  const HeaderWords: seq<string> := ["NAME", "USED", "AVAIL", "REFER", "MOUNTPOINT"]

  /** One dataset row of the table: its name, then its column values
      (used, available and referenced space, and the mount point or `-`). */
  datatype Row = Row(name: string, values: seq<string>)

  predicate WellFormedRow(row: Row) {
    && IsWord(row.name)
    && forall k :: 0 <= k < |row.values| ==> IsWord(row.values[k])
  }

  predicate WellFormedRows(rows: seq<Row>) {
    forall k :: 0 <= k < |rows| ==> WellFormedRow(rows[k])
  }

  /** A row as a line of the table, without its line feed. */
  function RowLine(row: Row): (line: string)
    requires WellFormedRow(row)
    ensures '\n' !in line
    ensures |Split(line)| > 0 && Split(line)[0] == row.name
  {
    var words := [row.name] + row.values;
    assert forall k :: 1 <= k < |words| ==> words[k] == row.values[k - 1];
    FirstTokenOfUnwords(words);
    Unwords(words)
  }

  function RowLines(rows: seq<Row>): (lines: seq<string>)
    requires WellFormedRows(rows)
    ensures |lines| == |rows|
    ensures forall k :: 0 <= k < |rows| ==> lines[k] == RowLine(rows[k])
    ensures forall k :: 0 <= k < |lines| ==> '\n' !in lines[k]
    decreases |rows|
  {
    if |rows| == 0 then [] else [RowLine(rows[0])] + RowLines(rows[1..])
  }

  /** The datasets a table lists, in its order. */
  function Names(rows: seq<Row>): (names: seq<string>)
    ensures |names| == |rows|
    ensures forall k :: 0 <= k < |rows| ==> names[k] == rows[k].name
    decreases |rows|
  {
    if |rows| == 0 then [] else [rows[0].name] + Names(rows[1..])
  }

  /** What `zfs list` prints: the header line, then one line per dataset. */
  function Table(rows: seq<Row>): (listing: string)
    requires WellFormedRows(rows)
  {
    assert forall k :: 0 <= k < |HeaderWords| ==> IsWord(HeaderWords[k]);
    Lines([Unwords(HeaderWords)] + RowLines(rows))
  }

  /** The first token of each row line is the row's dataset name. */
  lemma {:induction false} FirstTokensOfRows(rows: seq<Row>)
    requires WellFormedRows(rows)
    ensures FirstTokens(RowLines(rows)) == Names(rows)
    decreases |rows|
  {
    if |rows| > 0 {
      var lines := RowLines(rows);
      assert lines[0] == RowLine(rows[0]) && lines[1..] == RowLines(rows[1..]);
      FirstTokensOfRows(rows[1..]);
    }
  }

  /** The name column of a table is exactly the list of its datasets. */
  lemma NameColumnOfTable(rows: seq<Row>)
    requires WellFormedRows(rows)
    ensures NameColumn(Table(rows)) == Names(rows)
  {
    assert forall k :: 0 <= k < |HeaderWords| ==> IsWord(HeaderWords[k]);
    var lines := [Unwords(HeaderWords)] + RowLines(rows);
    LinesOfLines(lines);
    assert lines[1..] == RowLines(rows);
    FirstTokensOfRows(rows);
  }

  /** Setup validation as written accepts every header word as a volume
      group, on every table, even one that lists no dataset at all. */
  lemma SetupAcceptsHeaderWords(rows: seq<Row>, w: string)
    requires WellFormedRows(rows) && w in HeaderWords
    ensures CheckForSetupError(w, Table(rows)) == Outcome([], NoneValue)
  {
    assert forall k :: 0 <= k < |HeaderWords| ==> IsWord(HeaderWords[k]);
    var lines := [Unwords(HeaderWords)] + RowLines(rows);
    var k :| 0 <= k < |HeaderWords| && HeaderWords[k] == w;
    UnwordsListed(HeaderWords, k);
    ListedInLines(lines, 0, w);
  }

  /** Every column value is a whole token of its row's line. */
  lemma RowValueListed(row: Row, j: int)
    requires WellFormedRow(row) && 0 <= j < |row.values|
    ensures Listed(RowLine(row), row.values[j])
  {
    var words := [row.name] + row.values;
    assert forall k :: 1 <= k < |words| ==> words[k] == row.values[k - 1];
    UnwordsListed(words, j + 1);
  }

  /** Likewise every column value of every row, such as the `-` that
      stands for a volume's mount point, passes validation as written. */
  lemma SetupAcceptsColumnValues(rows: seq<Row>, i: int, j: int)
    requires WellFormedRows(rows) && 0 <= i < |rows| && 0 <= j < |rows[i].values|
    ensures CheckForSetupError(rows[i].values[j], Table(rows)) == Outcome([], NoneValue)
  {
    RowValueListed(rows[i], j);
    assert forall k :: 0 <= k < |HeaderWords| ==> IsWord(HeaderWords[k]);
    var lines := [Unwords(HeaderWords)] + RowLines(rows);
    assert lines[i + 1] == RowLine(rows[i]);
    ListedInLines(lines, i + 1, rows[i].values[j]);
  }

  /** The intended setup validation passes on a table exactly when the
      group is one of the datasets it lists. */
  lemma SetupIntendedMatchesTable(group: string, rows: seq<Row>)
    requires WellFormedRows(rows)
    ensures CheckForSetupErrorIntended(group, Table(rows)).ret == NoneValue <==> group in Names(rows)
  {
    NameColumnOfTable(rows);
  }

  /** After `delete_volume` the volume's dataset is gone and every other
      dataset is still there; a second `delete_volume` issues nothing and
      returns `True`. */
  lemma DeleteVolumeRemovesVolume(group: string, datasets: seq<string>, volume: Record)
    requires WellNamed(datasets) && volume.VolumeRecord?
    ensures var after := Run(datasets, DeleteVolume(group, Lines(datasets), volume).commands);
      && (forall x :: x in after <==> x in datasets && x != group + "/" + volume.name)
      && DeleteVolume(group, Lines(after), volume) == Outcome([], TrueValue)
  {
    var path := group + "/" + volume.name;
    var o := DeleteVolume(group, Lines(datasets), volume);
    var after := Run(datasets, o.commands);
    ListedIffInLines(datasets, path);
    if o.ret != TrueValue {
      RunTwo(datasets, o.commands[0], o.commands[1]);
      assert after == Remove(datasets, path);
    }
    ListedIffInLines(after, path);
  }

  /** After `_create_volume` the new volume is present in the listing. */
  lemma CreateVolumeMakesPresent(group: string, datasets: seq<string>, name: string, sizestr: string)
    requires WellNamed(datasets) && IsWord(group + "/" + name)
    ensures var after := Run(datasets, CreateVolume(group, name, sizestr));
      && after == datasets + [group + "/" + name]
      && !VolumeNotPresent(group, Lines(after), name)
  {
    var after := Run(datasets, CreateVolume(group, name, sizestr));
    RunOne(datasets, CreateVolume(group, name, sizestr)[0]);
    assert after == datasets + [group + "/" + name];
    assert WellNamed(after);
    ListedIffInLines(after, group + "/" + name);
  }

  /** After `create_snapshot` the composite snapshot dataset is present,
      so, on a listing that shows snapshots, `delete_snapshot` no longer
      treats it as already deleted. */
  lemma CreateSnapshotMakesPresent(group: string, datasets: seq<string>, snapshot: Record)
    requires WellNamed(datasets) && snapshot.SnapshotRecord?
    requires IsWord(group + "/" + snapshot.volumeName + "@" + snapshot.name)
    ensures var after := Run(datasets, CreateSnapshot(group, snapshot).commands);
      && after == datasets + [group + "/" + snapshot.volumeName + "@" + snapshot.name]
      && DeleteSnapshot(group, Lines(after), snapshot).ret == NoneValue
  {
    var full := group + "/" + snapshot.volumeName + "@" + snapshot.name;
    var after := Run(datasets, CreateSnapshot(group, snapshot).commands);
    RunOne(datasets, CreateSnapshot(group, snapshot).commands[0]);
    assert after == datasets + [full];
    assert WellNamed(after);
    ListedIffInLines(after, full);
  }

  /** On a listing that shows snapshots, `delete_snapshot` as written
      leaves the snapshot in place: the composite dataset it found is still
      there and still listed, while `<group>/<snapshot name>`, a different
      dataset, is destroyed. */
  lemma DeleteSnapshotKeepsSnapshot(group: string, datasets: seq<string>, snapshot: Record)
    requires WellNamed(datasets) && snapshot.SnapshotRecord?
    requires group + "/" + snapshot.volumeName + "@" + snapshot.name in datasets
    ensures var after := Run(datasets, DeleteSnapshot(group, Lines(datasets), snapshot).commands);
      && group + "/" + snapshot.volumeName + "@" + snapshot.name in after
      && (forall x :: x in after <==> x in datasets && x != group + "/" + snapshot.name)
      && DeleteSnapshot(group, Lines(after), snapshot).ret == NoneValue
  {
    var full := group + "/" + snapshot.volumeName + "@" + snapshot.name;
    var wrong := group + "/" + snapshot.name;
    var o := DeleteSnapshot(group, Lines(datasets), snapshot);
    ListedIffInLines(datasets, full);
    assert o.ret == NoneValue;
    var after := Run(datasets, o.commands);
    RunTwo(datasets, o.commands[0], o.commands[1]);
    assert after == Remove(datasets, wrong);
    assert |full| > |wrong|;
    ListedIffInLines(after, full);
  }

  /** The corrected `delete_snapshot` removes the snapshot and nothing
      else. */
  lemma DeleteSnapshotIntendedRemovesSnapshot(group: string, datasets: seq<string>, snapshot: Record)
    requires WellNamed(datasets) && snapshot.SnapshotRecord?
    ensures forall x ::
      x in Run(datasets, DeleteSnapshotIntended(group, Lines(datasets), snapshot).commands) <==>
      x in datasets && x != group + "/" + snapshot.volumeName + "@" + snapshot.name
  {
    var full := group + "/" + snapshot.volumeName + "@" + snapshot.name;
    var o := DeleteSnapshotIntended(group, Lines(datasets), snapshot);
    ListedIffInLines(datasets, full);
    if o.ret != TrueValue {
      RunTwo(datasets, o.commands[0], o.commands[1]);
    }
  }

  /** Once the corrected `delete_snapshot` has run, a second call issues
      nothing and returns `True`. */
  lemma DeleteSnapshotIntendedIdempotent(group: string, datasets: seq<string>, snapshot: Record)
    requires WellNamed(datasets) && snapshot.SnapshotRecord?
    ensures var after := Run(datasets, DeleteSnapshotIntended(group, Lines(datasets), snapshot).commands);
      DeleteSnapshotIntended(group, Lines(after), snapshot) == Outcome([], TrueValue)
  {
    var full := group + "/" + snapshot.volumeName + "@" + snapshot.name;
    var after := Run(datasets, DeleteSnapshotIntended(group, Lines(datasets), snapshot).commands);
    DeleteSnapshotIntendedRemovesSnapshot(group, datasets, snapshot);
    assert WellNamed(after) by {
      forall k | 0 <= k < |after|
        ensures IsWord(after[k])
      {
        assert after[k] in after;
      }
    }
    ListedIffInLines(after, full);
  }
}

=== FILE: decimal.dfy ===
/**
 Decimal rendering of integers as Python's `'%d' % n` produces it (an
 optional minus sign followed by the digits, with no leading zeros), and
 the parser that reads such a rendering back.
 */
module Decimal {
  import opened Options

  predicate IsDigit(c: char) {
    '0' <= c <= '9'
  }

  predicate AllDigits(s: string) {
    forall k :: 0 <= k < |s| ==> IsDigit(s[k])
  }

  function DigitChar(d: nat): (c: char)
    requires d < 10
    ensures IsDigit(c)
  {
    (48 + d) as char
  }

  function DigitValue(c: char): (d: nat)
    requires IsDigit(c)
    ensures d < 10
  {
    c as int - 48
  }

  /** The digits of `n`, most significant first. */
  function NatToString(n: nat): (s: string)
    ensures |s| > 0 && AllDigits(s)
    ensures s[0] == '0' ==> n == 0
    decreases n
  {
    if n < 10 then [DigitChar(n)] else NatToString(n / 10) + [DigitChar(n % 10)]
  }

  /** The number a string of digits denotes. */
  function DigitsToNat(s: string): (n: nat)
    requires AllDigits(s)
    decreases |s|
  {
    if |s| == 0 then 0 else DigitsToNat(s[..|s| - 1]) * 10 + DigitValue(s[|s| - 1])
  }

  /** Python's `%d` conversion. */
  function IntToString(i: int): (s: string)
    ensures |s| > 0
  {
    if i < 0 then "-" + NatToString(-i) else NatToString(i)
  }

  /** Reads an optional minus sign followed by at least one digit. */
  function ParseInt(s: string): (parsed: Option<int>) {
    if |s| > 0 && s[0] == '-' then
      if |s| > 1 && AllDigits(s[1..]) then Some(-(DigitsToNat(s[1..]) as int)) else None
    else if |s| > 0 && AllDigits(s) then Some(DigitsToNat(s))
    else None
  }

  lemma {:induction false} NatRoundTrip(n: nat)
    ensures DigitsToNat(NatToString(n)) == n
    decreases n
  {
    var s := NatToString(n);
    if n >= 10 {
      NatRoundTrip(n / 10);
      assert s[..|s| - 1] == NatToString(n / 10);
    }
  }

  lemma NegativeRoundTrip(i: int)
    requires i < 0
    ensures ParseInt(IntToString(i)) == Some(i)
  {
    var s := IntToString(i);
    var digits := NatToString(-i);
    assert s[0] == '-' && s[1..] == digits;
    NatRoundTrip(-i);
  }

  /** Parsing a `%d` rendering gives the integer back. */
  lemma IntRoundTrip(i: int)
    ensures ParseInt(IntToString(i)) == Some(i)
  {
    if i < 0 {
      NegativeRoundTrip(i);
    } else {
      NatRoundTrip(i);
    }
  }
}

=== FILE: option.dfy ===
/** An optional value, for partial parsers. */
module Options {

  datatype Option<+T> = None | Some(value: T)
}

=== FILE: scenarios.dfy ===
/**
 Concrete cases of the driver's behaviour on a small pool `tank`.
 */
module Scenarios {
  import opened Tokens
  import opened ZVolDriver
  import opened Backend

  /** A pool holding the group, two volumes whose names share a prefix, and
      a snapshot of the first volume. */
  const Pool: seq<string> := ["tank", "tank/vol1", "tank/vol10", "tank/vol1@snap1"]

  lemma PoolWellNamed()
    ensures WellNamed(Pool)
  {
    assert IsWord(Pool[0]) && IsWord(Pool[1]) && IsWord(Pool[2]) && IsWord(Pool[3]);
  }

  /** Device paths of a volume and of a snapshot record. */
  lemma LocalPathExamples()
    ensures LocalPath("tank", VolumeRecord("v1", 1)) == "/dev/zvol/tank/v1"
    ensures LocalPath("tank", SnapshotRecord("s1", "v1", 1)) == "/dev/zvol/tank/v1@s1"
  {
  }

  /** A name that is only a prefix of a listed dataset is not present. */
  lemma PrefixIsNotPresent()
    ensures !VolumeNotPresent("tank", Lines(Pool), "vol10")
    ensures VolumeNotPresent("tank", Lines(Pool), "vol")
    ensures VolumeNotPresent("tank", Lines(Pool), "vol1@snap")
  {
    PoolWellNamed();
    assert PathName("tank", "vol10") == Pool[2];
    PresenceMatchesPool("tank", Pool, "vol10");
    PresenceMatchesPool("tank", Pool, "vol");
    PresenceMatchesPool("tank", Pool, "vol1@snap");
  }

  /** Setup validation accepts `tank` and rejects `tan`, a prefix of it. */
  lemma SetupExamples()
    ensures CheckForSetupError("tank", Lines(Pool)) == Outcome([], NoneValue)
    ensures CheckForSetupError("tan", Lines(Pool)).ret.Raised?
  {
    PoolWellNamed();
    SetupMatchesPool("tank", Pool);
    SetupMatchesPool("tan", Pool);
  }

  /** Deleting snapshot `snap1` of `vol1` as written zeroes the snapshot's
      device and then destroys `tank/snap1`, which is not the snapshot. */
  lemma DeleteSnapshotExample()
    ensures DeleteSnapshot("tank", Lines(Pool), SnapshotRecord("snap1", "vol1", 2)) ==
      Outcome([Dd("/dev/zero", "/dev/zvol/tank/vol1@snap1", 2048), Destroy("tank/snap1")], NoneValue)
  {
    var snapshot := SnapshotRecord("snap1", "vol1", 2);
    PoolWellNamed();
    assert SnapshotFullName(snapshot) == "vol1@snap1";
    assert PathName("tank", "vol1@snap1") == Pool[3];
    PresenceMatchesPool("tank", Pool, "vol1@snap1");
    assert "/dev/zvol/" + "tank" + "/" + "vol1" + "@" + "snap1" == "/dev/zvol/tank/vol1@snap1";
    assert "tank" + "/" + "snap1" == "tank/snap1";
  }

  /** `zfs list` of the group and one zvol. */
  const Rows: seq<Row> := [Row("tank", ["1.5G", "10G", "24K", "/tank"]), Row("tank/vol1", ["2G", "12G", "8K", "-"])]

  lemma RowsWellFormed()
    ensures WellFormedRows(Rows)
  {
    assert WellFormedRow(Rows[0]) by {
      assert IsWord(Rows[0].values[0]) && IsWord(Rows[0].values[1]) && IsWord(Rows[0].values[2]) && IsWord(Rows[0].values[3]);
    }
    assert WellFormedRow(Rows[1]) by {
      assert IsWord(Rows[1].values[0]) && IsWord(Rows[1].values[1]) && IsWord(Rows[1].values[2]) && IsWord(Rows[1].values[3]);
    }
  }

  /** On that listing, setup validation as written accepts `-`, the mount
      point column of the zvol, as the volume group; the intended
      validation raises for it and accepts `tank`. */
  lemma SetupTableExample()
    ensures WellFormedRows(Rows)
    ensures && CheckForSetupError("-", Table(Rows)) == Outcome([], NoneValue)
            && CheckForSetupErrorIntended("-", Table(Rows)).ret.Raised?
            && CheckForSetupErrorIntended("tank", Table(Rows)) == Outcome([], NoneValue)
  {
    RowsWellFormed();
    assert Rows[1].values[3] == "-";
    assert "-" !in Names(Rows);
    SetupAcceptsColumnValues(Rows, 1, 3);
    SetupIntendedMatchesTable("-", Rows);
    SetupIntendedMatchesTable("tank", Rows);
  }

  /** `zfs list` of the group and a filesystem under it, each with its
      used space and mount point. */
  const MountRows: seq<Row> := [Row("tank", ["1G", "/tank"]), Row("tank/fs", ["1G", "/tank/fs"])]

  /** A group mistaken for its mount point, `/tank`, passes setup
      validation as written, though the corrected validation raises; the
      presence test then finds `/tank/fs`, a mount point, as the volume `fs`. */
  lemma MountPointAsGroup()
    ensures WellFormedRows(MountRows)
    ensures && CheckForSetupError("/tank", Table(MountRows)) == Outcome([], NoneValue)
            && CheckForSetupErrorIntended("/tank", Table(MountRows)).ret.Raised?
            && !VolumeNotPresent("/tank", Table(MountRows), "fs")
  {
    assert WellFormedRow(MountRows[0]) by {
      assert IsWord(MountRows[0].values[0]) && IsWord(MountRows[0].values[1]);
    }
    assert WellFormedRow(MountRows[1]) by {
      assert IsWord(MountRows[1].values[0]) && IsWord(MountRows[1].values[1]);
    }
    assert MountRows[0].values[1] == "/tank";
    assert MountRows[1].values[1] == PathName("/tank", "fs");
    assert "/tank" !in Names(MountRows);
    SetupAcceptsColumnValues(MountRows, 0, 1);
    SetupAcceptsColumnValues(MountRows, 1, 1);
    SetupIntendedMatchesTable("/tank", MountRows);
  }
}

=== FILE: tokens.dfy ===
/**
 Whitespace tokenisation of command output, as Python 2's `str.split()`
 with no argument performs it: runs of whitespace separate tokens, and
 leading, trailing and repeated whitespace yields no empty token.

 `Split` is the executable tokeniser; `Listed` is an independent,
 position-based description of "t is one of the tokens of s", and
 `SplitListed` proves the two agree. `Lines` renders a list of words as a
 listing with one word per line, and `SplitLines` proves that splitting
 such a listing gives the words back.
 */
module Tokens {

  /** The characters `str.isspace()` accepts on a byte string:
      space, tab, line feed, vertical tab, form feed, carriage return. */
  predicate IsSpace(c: char) {
    c == ' ' || 9 <= c as int <= 13
  }

  predicate NoSpace(w: string) {
    forall k :: 0 <= k < |w| ==> !IsSpace(w[k])
  }

  /** A possible token: non-empty and free of whitespace. */
  predicate IsWord(w: string) {
    |w| > 0 && NoSpace(w)
  }

  /** Length of the run of non-whitespace characters that starts `s`. */
  function WordLength(s: string): (n: nat)
    ensures n <= |s|
    ensures forall k :: 0 <= k < n ==> !IsSpace(s[k])
    ensures n < |s| ==> IsSpace(s[n])
    decreases |s|
  {
    if |s| == 0 || IsSpace(s[0]) then 0 else 1 + WordLength(s[1..])
  }

  /** The tokens of `s`, in order of appearance. */
  function Split(s: string): (ts: seq<string>)
    ensures forall k :: 0 <= k < |ts| ==> IsWord(ts[k])
    decreases |s|
  {
    if |s| == 0 then []
    else if IsSpace(s[0]) then Split(s[1..])
    else
      var n := WordLength(s);
      [s[..n]] + Split(s[n..])
  }

  /** `s[i..j]` is a maximal run of non-whitespace characters of `s`. */
  ghost predicate TokenAt(s: string, i: int, j: int) {
    && 0 <= i < j <= |s|
    && (forall k :: i <= k < j ==> !IsSpace(s[k]))
    && (i == 0 || IsSpace(s[i - 1]))
    && (j == |s| || IsSpace(s[j]))
  }

  /** `t` occurs in `s` as a whole token: exactly, not as a part of a longer one. */
  ghost predicate Listed(s: string, t: string) {
    exists i, j :: TokenAt(s, i, j) && s[i..j] == t
  }

  /** A whole token of `s` that starts at or after position `n` is a whole
      token of `s[n..]`, at positions shifted by `n`. */
  lemma TokenInSuffix(s: string, n: nat, i: int, j: int)
    requires TokenAt(s, i, j) && n <= i
    ensures TokenAt(s[n..], i - n, j - n) && s[n..][i - n..j - n] == s[i..j]
  {
    var r := s[n..];
    assert forall k :: i - n <= k < j - n ==> r[k] == s[k + n];
    assert i - n > 0 ==> r[i - n - 1] == s[i - 1];
    assert j - n < |r| ==> r[j - n] == s[j];
    assert forall k :: 0 <= k < j - i ==> r[i - n..j - n][k] == s[i..j][k];
  }

  /** A whole token of `s[n..]` is a whole token of `s`, at positions
      shifted by `n`, unless it starts the suffix and `s[n - 1]` joins it. */
  lemma TokenFromSuffix(s: string, n: nat, i: int, j: int)
    requires n <= |s| && TokenAt(s[n..], i, j)
    requires i > 0 || n == 0 || IsSpace(s[n - 1])
    ensures TokenAt(s, i + n, j + n) && s[i + n..j + n] == s[n..][i..j]
  {
    var r := s[n..];
    assert forall k :: i + n <= k < j + n ==> s[k] == r[k - n];
    assert i > 0 ==> s[i + n - 1] == r[i - 1];
    assert j < |r| ==> s[j + n] == r[j];
    assert forall k :: 0 <= k < j - i ==> s[i + n..j + n][k] == r[i..j][k];
  }

  /** A leading whitespace character neither makes nor breaks a token. */
  lemma ListedAfterSpace(s: string, t: string)
    requires |s| > 0 && IsSpace(s[0])
    ensures Listed(s, t) <==> Listed(s[1..], t)
  {
    if Listed(s, t) {
      var i, j :| TokenAt(s, i, j) && s[i..j] == t;
      assert i >= 1;
      TokenInSuffix(s, 1, i, j);
    }
    if Listed(s[1..], t) {
      var i, j :| TokenAt(s[1..], i, j) && s[1..][i..j] == t;
      TokenFromSuffix(s, 1, i, j);
    }
  }

  /** A whole token of `s`, when `s` starts with a word, is that word or a
      whole token of what follows the word. */
  lemma ListedInWordOrAfter(s: string, t: string)
    requires |s| > 0 && !IsSpace(s[0]) && Listed(s, t)
    ensures t == s[..WordLength(s)] || Listed(s[WordLength(s)..], t)
  {
    var n := WordLength(s);
    var i, j :| TokenAt(s, i, j) && s[i..j] == t;
    if i == 0 {
      assert j == n;
    } else {
      assert i > n;
      TokenInSuffix(s, n, i, j);
    }
  }

  /** The word that starts `s` is a whole token of `s`. */
  lemma LeadingWordListed(s: string)
    requires |s| > 0 && !IsSpace(s[0])
    ensures Listed(s, s[..WordLength(s)])
  {
    var n := WordLength(s);
    assert TokenAt(s, 0, n);
    assert s[0..n] == s[..n];
  }

  /** A whole token of a suffix that starts with whitespace is a whole
      token of `s`. */
  lemma ListedInSuffix(s: string, n: nat, t: string)
    requires n < |s| && IsSpace(s[n]) && Listed(s[n..], t)
    ensures Listed(s, t)
  {
    var r := s[n..];
    var i, j :| TokenAt(r, i, j) && r[i..j] == t;
    assert r[0] == s[n];
    assert i > 0;
    TokenFromSuffix(s, n, i, j);
  }

  /** When `s` starts with a word, its tokens are that word and the tokens
      of what follows the word. */
  lemma ListedAfterWord(s: string, t: string)
    requires |s| > 0 && !IsSpace(s[0])
    ensures Listed(s, t) <==> t == s[..WordLength(s)] || Listed(s[WordLength(s)..], t)
  {
    if Listed(s, t) {
      ListedInWordOrAfter(s, t);
    }
    if t == s[..WordLength(s)] {
      LeadingWordListed(s);
    }
    var n := WordLength(s);
    if Listed(s[n..], t) {
      assert n < |s|;
      ListedInSuffix(s, n, t);
    }
  }

  /** `Split` finds exactly the whole tokens of its input. */
  lemma {:induction false} SplitListed(s: string, t: string)
    ensures t in Split(s) <==> Listed(s, t)
    decreases |s|
  {
    if |s| == 0 {
      assert !Listed(s, t);
    } else if IsSpace(s[0]) {
      ListedAfterSpace(s, t);
      SplitListed(s[1..], t);
    } else {
      ListedAfterWord(s, t);
      SplitListed(s[WordLength(s)..], t);
    }
  }

  /** A listing with one entry per line, each line ended by a line feed. */
  function Lines(ws: seq<string>): (listing: string) {
    if |ws| == 0 then [] else ws[0] + "\n" + Lines(ws[1..])
  }

  /** Splitting a listing of words gives back the words, in order. */
  lemma {:induction false} SplitLines(ws: seq<string>)
    requires forall k :: 0 <= k < |ws| ==> IsWord(ws[k])
    ensures Split(Lines(ws)) == ws
  {
    if |ws| > 0 {
      var w, rest := ws[0], Lines(ws[1..]);
      var s := Lines(ws);
      assert s == w + "\n" + rest;
      assert s[|w|] == '\n';
      var n := WordLength(s);
      assert n == |w|;
      assert s[..n] == w;
      var tail := s[n..];
      assert tail[0] == '\n' && tail[1..] == rest;
      SplitLines(ws[1..]);
      assert Split(s) == [w] + ws[1..];
    }
  }

  /** A whole token of `p` stays a whole token when `p` is followed by
      nothing or by whitespace. */
  lemma ListedInPrefix(p: string, rest: string, t: string)
    requires Listed(p, t)
    requires |rest| == 0 || IsSpace(rest[0])
    ensures Listed(p + rest, t)
  {
    var s := p + rest;
    var i, j :| TokenAt(p, i, j) && p[i..j] == t;
    assert forall k :: 0 <= k < |p| ==> s[k] == p[k];
    assert j < |s| ==> IsSpace(s[j]);
    assert s[i..j] == p[i..j];
    assert TokenAt(s, i, j);
  }

  /** A word with whitespace or nothing on either side is a whole token. */
  lemma WordBetweenSpaces(p: string, w: string, q: string)
    requires IsWord(w)
    requires |p| == 0 || IsSpace(p[|p| - 1])
    requires |q| == 0 || IsSpace(q[0])
    ensures Listed(p + w + q, w)
  {
    var s := p + w + q;
    var i, j := |p|, |p| + |w|;
    assert forall k :: 0 <= k < |w| ==> s[i + k] == w[k];
    assert i > 0 ==> s[i - 1] == p[|p| - 1];
    assert j < |s| ==> s[j] == q[0];
    assert s[i..j] == w;
    assert TokenAt(s, i, j);
  }

  /** Words joined by single spaces: one line of a table. */
  function Unwords(ws: seq<string>): (line: string)
    requires forall k :: 0 <= k < |ws| ==> IsWord(ws[k])
    ensures '\n' !in line
    decreases |ws|
  {
    if |ws| == 0 then []
    else
      assert '\n' !in ws[0] by {
        assert IsWord(ws[0]);
        assert forall k :: 0 <= k < |ws[0]| ==> ws[0][k] != '\n';
      }
      if |ws| == 1 then ws[0] else ws[0] + " " + Unwords(ws[1..])
  }

  /** A whole token of `rest` stays one after a prefix that ends in
      whitespace. */
  lemma ListedAfterSeparator(p: string, rest: string, t: string)
    requires |p| > 0 && IsSpace(p[|p| - 1]) && Listed(rest, t)
    ensures Listed(p + rest, t)
  {
    var s := p + rest;
    var i, j :| TokenAt(rest, i, j) && rest[i..j] == t;
    assert s[|p|..] == rest;
    assert s[|p| - 1] == p[|p| - 1];
    TokenFromSuffix(s, |p|, i, j);
  }

  /** Every word of a line of words is a whole token of it. */
  lemma {:induction false} UnwordsListed(ws: seq<string>, k: int)
    requires forall k :: 0 <= k < |ws| ==> IsWord(ws[k])
    requires 0 <= k < |ws|
    ensures Listed(Unwords(ws), ws[k])
    decreases |ws|
  {
    if |ws| == 1 {
      WordBetweenSpaces("", ws[0], "");
      assert "" + ws[0] + "" == ws[0];
    } else {
      var rest := Unwords(ws[1..]);
      assert Unwords(ws) == (ws[0] + " ") + rest;
      if k == 0 {
        WordBetweenSpaces("", ws[0], " " + rest);
        assert "" + ws[0] + (" " + rest) == (ws[0] + " ") + rest;
      } else {
        UnwordsListed(ws[1..], k - 1);
        ListedAfterSeparator(ws[0] + " ", rest, ws[k]);
      }
    }
  }

  /** The first token of a non-empty line of words is its first word. */
  lemma FirstTokenOfUnwords(ws: seq<string>)
    requires forall k :: 0 <= k < |ws| ==> IsWord(ws[k])
    requires |ws| > 0
    ensures |Split(Unwords(ws))| > 0 && Split(Unwords(ws))[0] == ws[0]
  {
    if |ws| == 1 {
      FirstTokenOfWord(ws[0], "");
      assert ws[0] + "" == Unwords(ws);
    } else {
      FirstTokenOfWord(ws[0], " " + Unwords(ws[1..]));
      assert ws[0] + (" " + Unwords(ws[1..])) == Unwords(ws);
    }
  }

  /** Length of the text before the first line feed of `s`. */
  function LineLength(s: string): (n: nat)
    ensures n <= |s|
    ensures forall k :: 0 <= k < n ==> s[k] != '\n'
    ensures n < |s| ==> s[n] == '\n'
    decreases |s|
  {
    if |s| == 0 || s[0] == '\n' then 0 else 1 + LineLength(s[1..])
  }

  /** The lines of `s`, each without its line feed. A final line feed ends
      the last line; it does not start an empty one. */
  function LinesOf(s: string): (ls: seq<string>)
    ensures forall k :: 0 <= k < |ls| ==> '\n' !in ls[k]
    decreases |s|
  {
    if |s| == 0 then []
    else
      var n := LineLength(s);
      assert forall k :: 0 <= k < n ==> s[..n][k] == s[k];
      [s[..n]] + (if n < |s| then LinesOf(s[n + 1..]) else [])
  }

  /** Cutting a listing at its line feeds gives back its entries, when no
      entry holds a line feed. */
  lemma {:induction false} LinesOfLines(ws: seq<string>)
    requires forall k :: 0 <= k < |ws| ==> '\n' !in ws[k]
    ensures LinesOf(Lines(ws)) == ws
  {
    if |ws| > 0 {
      var w, rest := ws[0], Lines(ws[1..]);
      var s := Lines(ws);
      assert s == w + "\n" + rest;
      assert forall k :: 0 <= k < |w| ==> s[k] == w[k];
      assert s[|w|] == '\n';
      var n := LineLength(s);
      assert n == |w|;
      assert s[..n] == w;
      assert s[n + 1..] == rest;
      LinesOfLines(ws[1..]);
    }
  }

  /** The first token of `w + rest` is `w`, when `w` is a word and `rest`
      is empty or starts with whitespace. */
  lemma FirstTokenOfWord(w: string, rest: string)
    requires IsWord(w)
    requires |rest| == 0 || IsSpace(rest[0])
    ensures |Split(w + rest)| > 0 && Split(w + rest)[0] == w
  {
    var s := w + rest;
    assert forall k :: 0 <= k < |w| ==> s[k] == w[k];
    var n := WordLength(s);
    assert |rest| > 0 ==> s[|w|] == rest[0];
    assert n == |w|;
    assert s[..n] == w;
  }

  /** The first token of each line that holds one, in order. */
  function FirstTokens(lines: seq<string>): (firsts: seq<string>)
    ensures forall k :: 0 <= k < |firsts| ==> IsWord(firsts[k])
    ensures |firsts| <= |lines|
    decreases |lines|
  {
    if |lines| == 0 then []
    else
      var ts := Split(lines[0]);
      (if |ts| > 0 then [ts[0]] else []) + FirstTokens(lines[1..])
  }

  /** A whole token of one line of a listing is a whole token of the
      listing. */
  lemma {:induction false} ListedInLines(ls: seq<string>, k: int, t: string)
    requires 0 <= k < |ls| && Listed(ls[k], t)
    ensures Listed(Lines(ls), t)
    decreases |ls|
  {
    var rest := Lines(ls[1..]);
    if k == 0 {
      assert Lines(ls) == ls[0] + ("\n" + rest);
      ListedInPrefix(ls[0], "\n" + rest, t);
    } else {
      assert Lines(ls) == (ls[0] + "\n") + rest;
      ListedInLines(ls[1..], k - 1, t);
      ListedAfterSeparator(ls[0] + "\n", rest, t);
    }
  }

  /** Whether `t` is a whole token of `s`, by the position-based description. */
  lemma ListedIffInLines(ws: seq<string>, t: string)
    requires forall k :: 0 <= k < |ws| ==> IsWord(ws[k])
    ensures Listed(Lines(ws), t) <==> t in ws
  {
    SplitLines(ws);
    SplitListed(Lines(ws), t);
  }
}

=== FILE: zvol_driver.dfy ===
/**
 The ZFS zvol volume driver: each lifecycle request of the block-storage
 service becomes the list of backend commands it issues, in order, and the
 value it returns or the error it raises.

 The configured volume group (the pool or parent dataset under which every
 zvol lives) and, where the driver reads `zfs list`, the text that command
 printed are parameters. Commands are values; nothing is executed here.
 */
module ZVolDriver {
  import opened Options
  import opened Tokens
  import opened Decimal

  /** The binaries the driver is configured with; `zpool` is never invoked. */
  const ZfsBin: string := "/sbin/zfs"
  const ZpoolBin: string := "/sbin/zpool"

  /** Source of the zero fill done before a destroy. */
  const ZeroDevice: string := "/dev/zero"

  /** Directory of the block special files ZFS creates for zvols. */
  const DeviceRoot: string := "/dev/zvol/"

  /** dd block count per gigabyte of volume size, at a block size of 1M. */
  const BlocksPerGig: int := 1024

  /** The volume and snapshot records the driver is handed. A snapshot is
      told apart from a volume by its `volumeName` field. */
  datatype Record =
    | VolumeRecord(name: string, size: int)
    | SnapshotRecord(name: string, volumeName: string, volumeSize: int)

  /** A backend command: a block copy, or a `zfs` subcommand. */
  datatype Command =
    | Dd(src: string, dst: string, count: int)
    | Destroy(target: string)
    | Create(size: string, target: string)
    | Snapshot(target: string)

  /** What a driver call hands back: Python's `None`, `True`, or a raised
      error with its message. */
  datatype Return = NoneValue | TrueValue | Raised(message: string)

  /** The commands a call issues, in order, and what it returns. */
  datatype Outcome = Outcome(commands: seq<Command>, ret: Return)

  /** `<group>/<name>`: the dataset the zfs commands name. */
  function PathName(group: string, name: string): (path: string) {
    group + "/" + name
  }

  /** `<volume>@<snapshot>`: the dataset name of a snapshot relative to
      the group (`_snapshot_full_name`). */
  function SnapshotFullName(snapshot: Record): (fullName: string)
    requires snapshot.SnapshotRecord?
    ensures |fullName| == |snapshot.volumeName| + 1 + |snapshot.name|
    ensures fullName[..|snapshot.volumeName|] == snapshot.volumeName
    ensures fullName[|snapshot.volumeName|] == '@'
    ensures fullName[|snapshot.volumeName| + 1..] == snapshot.name
  {
    snapshot.volumeName + "@" + snapshot.name
  }

  /** The device special file of a record (`local_path`): a snapshot's is
      that of its composite name, a volume's that of its own name. */
  function LocalPath(group: string, record: Record): (path: string)
    ensures record.VolumeRecord? ==> path == DeviceRoot + PathName(group, record.name)
    ensures record.SnapshotRecord? ==>
      path == "/dev/zvol/" + group + "/" + record.volumeName + "@" + record.name
  {
    var fullName := if record.SnapshotRecord? then SnapshotFullName(record) else record.name;
    DeviceRoot + PathName(group, fullName)
  }

  /** Splits a composite snapshot name at its first `@`. */
  function SplitFullName(fullName: string): (parts: Option<(string, string)>)
    ensures parts.None? <==> '@' !in fullName
    decreases |fullName|
  {
    if |fullName| == 0 then None
    else if fullName[0] == '@' then Some(([], fullName[1..]))
    else
      match SplitFullName(fullName[1..])
      case None => None
      case Some((volume, snapshot)) => Some(([fullName[0]] + volume, snapshot))
  }

  /** Splitting the composite name of a snapshot at its first `@` gives
      back the volume and snapshot names, as a volume name holds no `@`. */
  lemma {:induction false} SplitFullNameOfJoin(snapshot: Record)
    requires snapshot.SnapshotRecord? && '@' !in snapshot.volumeName
    ensures SplitFullName(SnapshotFullName(snapshot)) == Some((snapshot.volumeName, snapshot.name))
    decreases |snapshot.volumeName|
  {
    var volume := snapshot.volumeName;
    var f := SnapshotFullName(snapshot);
    if |volume| == 0 {
      assert f[0] == '@' && f[1..] == snapshot.name;
    } else {
      var shorter := snapshot.(volumeName := volume[1..]);
      assert f[0] == volume[0] && f[1..] == SnapshotFullName(shorter);
      SplitFullNameOfJoin(shorter);
      assert [volume[0]] + volume[1..] == volume;
    }
  }

  /** A split composite name joins back to the name it came from, and its
      volume part holds no `@`. */
  lemma {:induction false} JoinOfSplitFullName(fullName: string, volume: string, snapshot: string)
    requires SplitFullName(fullName) == Some((volume, snapshot))
    ensures fullName == volume + "@" + snapshot
    ensures '@' !in volume
    decreases |fullName|
  {
    if fullName[0] != '@' {
      var rest := SplitFullName(fullName[1..]).value;
      JoinOfSplitFullName(fullName[1..], rest.0, rest.1);
      assert volume == [fullName[0]] + rest.0;
    }
  }

  /** Two records name the same backend object: same kind and same names. */
  predicate SameIdentity(a: Record, b: Record) {
    && a.name == b.name
    && a.SnapshotRecord? == b.SnapshotRecord?
    && (a.SnapshotRecord? ==> a.volumeName == b.volumeName)
  }

  /** Within one group, device paths tell records apart: a volume's path
      is never a snapshot's, and equal paths mean the same volume or the
      same snapshot, as long as volume names hold no `@`. */
  lemma LocalPathDistinguishes(group: string, a: Record, b: Record)
    requires a.VolumeRecord? ==> '@' !in a.name
    requires b.VolumeRecord? ==> '@' !in b.name
    requires a.SnapshotRecord? ==> '@' !in a.volumeName
    requires b.SnapshotRecord? ==> '@' !in b.volumeName
    ensures LocalPath(group, a) == LocalPath(group, b) <==> SameIdentity(a, b)
  {
    var prefix := DeviceRoot + group + "/";
    var fa := if a.SnapshotRecord? then SnapshotFullName(a) else a.name;
    var fb := if b.SnapshotRecord? then SnapshotFullName(b) else b.name;
    assert LocalPath(group, a) == prefix + fa;
    assert LocalPath(group, b) == prefix + fb;
    if LocalPath(group, a) == LocalPath(group, b) {
      assert fa == (prefix + fa)[|prefix|..];
      assert fb == (prefix + fb)[|prefix|..];
      assert fa == fb;
      if a.SnapshotRecord? {
        SplitFullNameOfJoin(a);
      }
      if b.SnapshotRecord? {
        SplitFullNameOfJoin(b);
      }
    }
  }

  /** `_volume_not_present`: the dataset `<group>/<name>` is not a whole
      token of the `zfs list` output. */
  function VolumeNotPresent(group: string, listing: string, volumeName: string): (absent: bool)
    ensures absent <==> !Listed(listing, PathName(group, volumeName))
  {
    SplitListed(listing, PathName(group, volumeName));
    PathName(group, volumeName) !in Split(listing)
  }

  /** `check_for_setup_error`: the configured group must be a whole token
      of the `zfs list` output. */
  function CheckForSetupError(group: string, listing: string): (o: Outcome)
    ensures o.commands == []
    ensures o.ret.Raised? <==> !Listed(listing, group)
    ensures o.ret.Raised? ==> o.ret.message == "zfs base volume group '" + group + "' doesn't exist"
    ensures !o.ret.Raised? ==> o.ret == NoneValue
  {
    SplitListed(listing, group);
    if group in Split(listing) then Outcome([], NoneValue)
    else Outcome([], Raised("zfs base volume group '" + group + "' doesn't exist"))
  }

  /** The dataset names of a `zfs list` listing: the first token of every
      line after the header line. */
  function NameColumn(listing: string): (names: seq<string>)
    ensures forall k :: 0 <= k < |names| ==> IsWord(names[k])
  {
    var lines := LinesOf(listing);
    if |lines| == 0 then [] else FirstTokens(lines[1..])
  }

  /** `check_for_setup_error` as evidently intended: the configured group
      must be the name of a listed dataset, not merely some token of the
      listing, such as a header word or a column value. */
  function CheckForSetupErrorIntended(group: string, listing: string): (o: Outcome)
    ensures o.commands == []
    ensures o.ret.Raised? <==> group !in NameColumn(listing)
    ensures o.ret.Raised? ==> o.ret.message == "zfs base volume group '" + group + "' doesn't exist"
    ensures !o.ret.Raised? ==> o.ret == NoneValue
  {
    if group in NameColumn(listing) then Outcome([], NoneValue)
    else Outcome([], Raised("zfs base volume group '" + group + "' doesn't exist"))
  }

  /** The argument vector a command is executed with. */
  function Argv(c: Command): (argv: seq<string>) {
    match c
    case Dd(src, dst, count) =>
      ["dd", "if=" + src, "of=" + dst, "count=" + IntToString(count), "bs=1M"]
    case Destroy(target) => [ZfsBin, "destroy", target]
    case Create(size, target) => [ZfsBin, "create", "-V", size, target]
    case Snapshot(target) => [ZfsBin, "snapshot", target]
  }

  function StripPrefix(prefix: string, s: string): (rest: Option<string>) {
    if |prefix| <= |s| && s[..|prefix|] == prefix then Some(s[|prefix|..]) else None
  }

  /** Reads an argument vector back as the command it runs. */
  function ParseArgv(argv: seq<string>): (parsed: Option<Command>) {
    if |argv| == 5 && argv[0] == "dd" && argv[4] == "bs=1M" then
      match (StripPrefix("if=", argv[1]), StripPrefix("of=", argv[2]), StripPrefix("count=", argv[3]))
      case (Some(src), Some(dst), Some(digits)) =>
        (match ParseInt(digits)
         case Some(count) => Some(Dd(src, dst, count))
         case None => None)
      case _ => None
    else if |argv| == 3 && argv[0] == ZfsBin && argv[1] == "destroy" then Some(Destroy(argv[2]))
    else if |argv| == 5 && argv[0] == ZfsBin && argv[1] == "create" && argv[2] == "-V" then
      Some(Create(argv[3], argv[4]))
    else if |argv| == 3 && argv[0] == ZfsBin && argv[1] == "snapshot" then Some(Snapshot(argv[2]))
    else None
  }

  lemma StripPrefixOf(prefix: string, s: string)
    ensures StripPrefix(prefix, prefix + s) == Some(s)
  {
    assert (prefix + s)[..|prefix|] == prefix;
    assert (prefix + s)[|prefix|..] == s;
  }

  /** The argument vector of a command determines the command. */
  lemma ArgvRoundTrip(c: Command)
    ensures ParseArgv(Argv(c)) == Some(c)
  {
    if c.Dd? {
      StripPrefixOf("if=", c.src);
      StripPrefixOf("of=", c.dst);
      StripPrefixOf("count=", IntToString(c.count));
      IntRoundTrip(c.count);
      assert "if=" + c.src != "dd";
    }
  }

  /** `_create_volume`: one `zfs create -V <size> <group>/<name>`. */
  function CreateVolume(group: string, volumeName: string, sizestr: string): (cs: seq<Command>)
    ensures |cs| == 1
    ensures Argv(cs[0]) == [ZfsBin, "create", "-V", sizestr, group + "/" + volumeName]
  {
    [Create(sizestr, PathName(group, volumeName))]
  }

  /** `_copy_volume`: a dd of `sizeInG` gigabytes in 1M blocks. */
  function CopyVolume(src: string, dst: string, sizeInG: int): (c: Command)
    ensures Argv(c) == ["dd", "if=" + src, "of=" + dst, "count=" + IntToString(sizeInG * 1024), "bs=1M"]
  {
    Dd(src, dst, sizeInG * BlocksPerGig)
  }

  /** `_delete_volume`: zero the record's device, then destroy the dataset
      named by the record's own `name`. */
  function DeleteZvol(group: string, record: Record, sizeInG: int): (cs: seq<Command>)
    ensures |cs| == 2
    ensures Argv(cs[0]) ==
      ["dd", "if=/dev/zero", "of=" + LocalPath(group, record), "count=" + IntToString(sizeInG * 1024), "bs=1M"]
    ensures Argv(cs[1]) == [ZfsBin, "destroy", group + "/" + record.name]
  {
    assert "if=" + ZeroDevice == "if=/dev/zero";
    [CopyVolume(ZeroDevice, LocalPath(group, record), sizeInG), Destroy(PathName(group, record.name))]
  }

  /** `delete_volume`: a volume missing from the listing counts as already
      deleted; otherwise it is zeroed over its whole size and destroyed. */
  function DeleteVolume(group: string, listing: string, volume: Record): (o: Outcome)
    requires volume.VolumeRecord?
    ensures o.ret == TrueValue <==> !Listed(listing, group + "/" + volume.name)
    ensures o.ret == TrueValue ==> o.commands == []
    ensures o.ret != TrueValue ==>
      && o.ret == NoneValue
      && o.commands == [
        Dd("/dev/zero", "/dev/zvol/" + group + "/" + volume.name, volume.size * 1024),
        Destroy(group + "/" + volume.name)]
  {
    assert DeviceRoot + PathName(group, volume.name) == "/dev/zvol/" + group + "/" + volume.name;
    if VolumeNotPresent(group, listing, volume.name) then Outcome([], TrueValue)
    else Outcome(DeleteZvol(group, volume, volume.size), NoneValue)
  }

  /** `create_snapshot`: one `zfs snapshot <group>/<volume>@<snapshot>`. */
  function CreateSnapshot(group: string, snapshot: Record): (o: Outcome)
    requires snapshot.SnapshotRecord?
    ensures o.ret == NoneValue
    ensures |o.commands| == 1
    ensures Argv(o.commands[0]) ==
      [ZfsBin, "snapshot", group + "/" + snapshot.volumeName + "@" + snapshot.name]
  {
    assert PathName(group, SnapshotFullName(snapshot))
      == group + "/" + snapshot.volumeName + "@" + snapshot.name;
    Outcome([Snapshot(PathName(group, SnapshotFullName(snapshot)))], NoneValue)
  }

  /** `delete_snapshot`, as written: the presence test and the zero fill
      use the composite `<volume>@<snapshot>` name, but the destroy names
      `<group>/<snapshot>`, because `_delete_volume` reads the record's
      own `name`. */
  function DeleteSnapshot(group: string, listing: string, snapshot: Record): (o: Outcome)
    requires snapshot.SnapshotRecord?
    ensures o.ret == TrueValue <==>
      !Listed(listing, group + "/" + snapshot.volumeName + "@" + snapshot.name)
    ensures o.ret == TrueValue ==> o.commands == []
    ensures o.ret != TrueValue ==>
      && o.ret == NoneValue
      && o.commands == [
        Dd("/dev/zero", "/dev/zvol/" + group + "/" + snapshot.volumeName + "@" + snapshot.name,
           snapshot.volumeSize * 1024),
        Destroy(group + "/" + snapshot.name)]
  {
    assert PathName(group, SnapshotFullName(snapshot))
      == group + "/" + snapshot.volumeName + "@" + snapshot.name;
    if VolumeNotPresent(group, listing, SnapshotFullName(snapshot)) then Outcome([], TrueValue)
    else Outcome(DeleteZvol(group, snapshot, snapshot.volumeSize), NoneValue)
  }

  /** A listing that holds no `@` names no snapshot, so on it
      `delete_snapshot` issues nothing and returns `True`. `zfs list`
      without `-t` prints no snapshots unless the pool's `listsnapshots`
      property is on. */
  lemma DeleteSnapshotNoOpWithoutSnapshotNames(group: string, listing: string, snapshot: Record)
    requires snapshot.SnapshotRecord? && '@' !in listing
    ensures DeleteSnapshot(group, listing, snapshot) == Outcome([], TrueValue)
  {
    var full := group + "/" + snapshot.volumeName + "@" + snapshot.name;
    var at := |group| + 1 + |snapshot.volumeName|;
    assert full[at] == '@';
  }

  /** `delete_snapshot` as evidently intended: the destroy names the same
      composite dataset that the presence test and the zero fill use. */
  function DeleteSnapshotIntended(group: string, listing: string, snapshot: Record): (o: Outcome)
    requires snapshot.SnapshotRecord?
    ensures o.ret == TrueValue <==>
      !Listed(listing, group + "/" + snapshot.volumeName + "@" + snapshot.name)
    ensures o.ret == TrueValue ==> o.commands == []
    ensures o.ret != TrueValue ==>
      && o.ret == NoneValue
      && o.commands == [
        Dd("/dev/zero", "/dev/zvol/" + group + "/" + snapshot.volumeName + "@" + snapshot.name,
           snapshot.volumeSize * 1024),
        Destroy(group + "/" + snapshot.volumeName + "@" + snapshot.name)]
  {
    var fullName := SnapshotFullName(snapshot);
    assert PathName(group, fullName) == group + "/" + snapshot.volumeName + "@" + snapshot.name;
    if VolumeNotPresent(group, listing, fullName) then Outcome([], TrueValue)
    else
      Outcome([CopyVolume(ZeroDevice, LocalPath(group, snapshot), snapshot.volumeSize),
               Destroy(PathName(group, fullName))], NoneValue)
  }
}
